=== FILE: README.md ===
# Port checker scan core, modelled in Dafny

The port checker is a small web service. A `POST /scan` request starts a
background sweep over every (target address, catalogue port) pair. Each pair is
probed with a short TCP connect, and every result goes onto one global
buffered channel. A `GET /events` request opens a server-sent-event stream
that drains that channel, forwarding each result as a `message` event and
ending with a single `complete` event. A shared progress record
(`Total`, `Current`, `IsRunning`) tracks the run.

This project models that core as a sequential state machine:

- `ScanTypes`: the `Port`, `ScanResult` and progress records.
- `CommaSplit`: Go's `strings.Split` on `","`, used on the custom-address field.
- `Channel`: the result channel as a FIFO sequence with a closed flag. A send
  or close on a closed channel is excluded by precondition, because in Go it
  panics.
- `Admission`: `handleScan`, which refuses a start while a run is active and
  otherwise builds the target list and sets the counters.
- `Sweep`: `scanPorts`, the nested loops in target-major, port-minor order, plus
  the deferred clean-up. It is written both as loops (`ScanPorts`) and as a
  functional reference (`FullSweep`), and proved equal.
- `Streamer`: `handleSSE`, the `select` loop over the channel and the
  client-disconnect notice. Every choice Go's `select` can make is one wake in
  an arbitrary schedule.
- `Session`: one run with the sweep and the stream handler interleaved in any
  order, plus the run invariant that ties them together.
- `Runs`: whole runs one after another, including the reused-channel finding
  below.

The network probe is a parameter `probe: (string, int) -> bool` (address,
port number). The local address list and the port catalogue are input
sequences.

## Model

| member | source | states |
|---|---|---|
| CommaSplit.Split | main.go:72 | splitting the custom field yields at least one piece and no piece contains a comma |
| CommaSplit.JoinSplit | main.go:72 | joining the pieces back with commas gives exactly the original field, so nothing is lost or invented |
| CommaSplit.SplitJoin | main.go:72 | comma-free pieces joined with commas split back into the same pieces, empty pieces included |
| CommaSplit.SplitCount | main.go:72 | there is exactly one more piece than there are commas |
| Channel.Send | main.go:125 | a send appends the value at the back of the buffer and keeps the earlier values; it needs an open channel |
| Channel.Close | main.go:109 | close marks the channel closed and keeps the buffered values; it needs an open channel |
| Channel.Receive | main.go:94-95 | a receive yields the oldest buffered value, or `ok == false` exactly when the channel is closed and empty, or would block |
| Channel.SendAll | main.go:125 | sending a sequence appends it in order |
| Channel.ReceiveAllBuffered | main.go:94 | receiving as often as there are buffered values returns them in buffer order and leaves the channel empty |
| Channel.FifoRoundTrip | main.go:40 | values sent on a fresh channel and then closed are received in send order, then the closed signal |
| Admission.Targets | main.go:69-73 | the target list is the local addresses followed by the comma pieces of the custom field; an empty field adds nothing |
| Admission.HandleScan | main.go:59-82 | a start while running is refused with 400 and changes nothing; otherwise IsRunning becomes true, Total is targets times ports, Current is 0, and the channel is kept |
| Admission.HandleScanFresh | main.go:59-82 | the same admission with a new open, empty channel for every accepted run |
| Admission.FreshAgreesAtBoot | main.go:40 | on the first run after start-up both admissions coincide |
| Admission.RefusalIdempotent | main.go:60-65 | any number of start requests while running leave the state unchanged |
| Sweep.StatusText | main.go:120-124 | the status is "open" or "closed", and "open" exactly when the connection succeeded |
| Sweep.Examine | main.go:118-125 | a result carries the pair's address and port record unchanged and is "open" exactly when the probe of that address and port number succeeds |
| Sweep.Pairs | main.go:116-117 | the sweep visits targets times ports pairs |
| Sweep.PairsOrder | main.go:116-117 | position `i * |ports| + j` of the sweep is target `i` with port `j` (target-major, port-minor, each pair once) |
| Sweep.StepsSnoc | main.go:116-130 | handling one more pair sends that pair's result after all earlier ones and raises Current by exactly one; Total and IsRunning are untouched |
| Sweep.PairsAppend | main.go:116-117 | sweeping a concatenated target list visits the first list's pairs, then the second's |
| Sweep.StepsAppend | main.go:116-130 | handling two runs of pairs in turn is handling their concatenation |
| Sweep.Cleanup | main.go:109-114 | the deferred clean-up clears IsRunning and closes the channel, keeping the queued results and the counters |
| Sweep.ScanTarget | main.go:117-130 | the inner loop for one target sends one result per port in port order |
| Sweep.ScanPorts | main.go:108-132 | the sweep appends one result per pair in target-major, port-minor order, raises Current once per pair (targets times ports in all), and ends with IsRunning false and the channel closed, also with no targets or no ports |
| Streamer.Step | main.go:92-105 | a ready result is written at once as a `message` and leaves the queue; on a closed, empty channel `complete` is written and the handler returns; on an open, empty channel nothing happens; a handler that has returned does nothing; a disconnect ends the handler and writes nothing; the handler never closes the channel and never adds to the queue |
| Streamer.StepPreserves | main.go:94-101 | a turn only appends events; a result leaves the queue exactly when it is written; `complete` is written only on a closed, empty channel and only as the last event |
| Streamer.Run | main.go:92-105 | over any schedule, delivered results followed by the remaining queue equal the queue the handler started from, and the event sequence stays well formed |
| Streamer.DeliveredMessages | main.go:98-100 | the results read back from the written `message` events are exactly the results forwarded, in order |
| Streamer.Name | main.go:96-100 | a result is sent under the event name `message` and the completion marker under `complete`, and under no other name |
| Streamer.CompletedEventNames | main.go:94-100 | a handler that returned through the completion arm wrote events named `message` only, followed by one named `complete` |
| Streamer.ReturnedIsFinal | main.go:92-105 | once the handler has returned, through `complete` or a disconnect, nothing more is written |
| Streamer.DisconnectStops | main.go:102-103 | after a disconnect the client has received exactly the events written before it |
| Streamer.DrainClosed | main.go:94-101 | a client attached to a closed channel receives every queued result as `message` in order, then exactly one `complete` |
| Streamer.OpenNeverCompletes | main.go:95-97 | on a channel that is still open no `complete` is ever written |
| Session.Act | main.go:108-129 | no interleaving of sweep and stream steps makes the sweep send on a closed channel |
| Session.LaunchEstablishes | main.go:66-79 | an accepted start sets up the run invariant for its own sweep |
| Session.ProducePreserves | main.go:116-129 | handling a pair moves its result from pending to the back of the queue and raises Current by one |
| Session.FinishPreserves | main.go:109-114 | the clean-up keeps the run invariant and leaves the run idle with the channel closed |
| Session.ConsumePreserves | main.go:92-105 | a stream turn keeps the run invariant |
| Session.ActPreserves | main.go:92-129 | every action keeps the run invariant |
| Session.ExecutePreserves | main.go:92-129 | every interleaving keeps the run invariant |
| Session.DeliveredSoFar | main.go:125-129 | at every point `0 <= Current <= Total`, and what the client has received is a prefix of the sweep's results in sweep order |
| Session.CompletedDeliversAll | main.go:94-97 | once `complete` is received, the client has one `message` per pair in sweep order and that single `complete` last; Total = Current and the run is idle |
| Session.LockstepRounds | main.go:94-129 | when the handler reads once before every send, the sweep never finds the buffer full and visits every remaining pair while the handler keeps listening |
| Session.DrainAfterCleanup | main.go:94-97 | after the clean-up, a handler listening for more turns than there are queued results writes `complete` |
| Session.AttachedClientGetsAll | main.go:92-132 | for any number of pairs, a client that reads each result as it arrives receives one `message` per pair in sweep order, then one `complete`, and the run ends idle with Current = Total |
| Session.LaunchDeliversAll | main.go:59-132 | every accepted start has a schedule Go can run in which the attached client receives every result in sweep order, then `complete`, and the run ends idle with Current = Total |
| Session.SweepFinishesAlone | main.go:108-132 | while the queued and the remaining results fit in the buffer of 100 (main.go:40), the sweep with no listener handles every pair and cleans up, ending with Current = Total |
| Session.SweepIgnoresStream | main.go:102-103 | while the queued and the remaining results fit in the buffer of 100, the stream handler, including a disconnect, has no effect on the progress record or the sweep's position |
| Session.StalledAfterDisconnect | main.go:125 | once the client has gone and 100 results are queued with pairs still to visit, the sweep's send blocks: no schedule of the run's own actions changes anything, so the run stays marked active until another stream handler attaches |
| Session.ReattachResumes | main.go:94-100 | a stream handler attached afresh to a stalled run reads the oldest queued result, which lets the sweep send its next result and raise Current by one |
| Session.StartDuringRunRefused | main.go:60-65 | a start request while the sweep is still running, before its clean-up, is refused and leaves the state unchanged |
| Session.StartAfterCleanupAdmitted | main.go:109-114 | once the clean-up has cleared `IsRunning` a start is admitted even while this run's results still wait unread; as written the new run is handed the same closed channel with them, and with a fresh channel they are dropped |
| Runs.FirstRun | main.go:59-132 | the first run, with the sweep finished before the client's first turn and the client then reading until the end, delivers one `message` per pair in order, then one `complete`; Total = Current = targets times ports and the run is idle |
| Runs.LoopbackNothingListening | main.go:116-125 | loopback with ssh and http and nothing listening gives two `closed` results, ssh first, then `complete`; Total and Current end at 2 |
| Runs.SecondRunMeetsClosedChannel | main.go:109 | as written, after one complete run a second start is accepted and its sweep gets the channel the first sweep closed |
| Runs.FreshRun | main.go:59-132 | with a fresh channel, a run from idle is admitted and leaves exactly its own results on a closed channel, with the run idle |
| Runs.SerialRuns | main.go:59-132 | with a fresh channel per run, any sequence of runs is well defined and ends idle, holding exactly the last run's results |

## Left out

- The TCP dial, its 200 ms timeout and the closing of the connection are network I/O. They are the `probe` parameter.
- Sweep.Examine: the probe is a function of (address, port number). A pair that appears twice in a run, such as a duplicated target address, gets the same answer both times, while the real network might answer differently.
- Goroutine launch and the mutex are concurrency. In `Session` the scheduler simply chooses the next step. The buffer of 100 is modelled there: the sweep's send is not enabled while 100 results are queued.
- Sweep.ScanPorts: runs the loops with no reader and does not block on a full buffer. In Go the sweep waits at main.go:125 whenever 100 results are queued, until a reader takes one. The stated results and end state are those of a run whose reader keeps up, as in `Session`.
- Runs.FirstRun: builds on `Sweep.FullSweep`, so with more than 100 pairs its order of events (whole sweep first, then the client) is not a schedule Go can run. `Session.AttachedClientGetsAll` and `Session.LaunchDeliversAll` reach the same outcome through a schedule Go can run, for any number of pairs. `Session.CompletedDeliversAll` shows that every schedule that reaches `complete` ends that way.
- The data line of each event is left out: a result's JSON encoding, and the fixed text `Scan complete` of the completion marker.
- `Total` and `Current` are written outside the lock, so a concurrent status reader could see a mix of old and new values. That is a data race and is not modelled.
- The deferred functions run last-in first-out, so `IsRunning` is cleared just before the channel is closed. The model treats the clean-up as one step, so that short window is not represented.
- A receive on an open, empty channel blocks in Go. In the model, a wake that finds nothing changes nothing.
- The panic itself is not modelled, and neither is the process crash it causes. A send or close on a closed channel is a precondition instead.
- Local address discovery runs the external `ipconfig` tool and matches its output against a pattern. Here it is an input sequence.
- Loading the port catalogue reads a file and decodes JSON, and an error gives an empty list. Here it is an input sequence.
- The web router, HTML and static file serving, the SSE response headers, the flush after each event, and the JSON encoding of results are HTTP and serialisation library code.
- Two stream handlers attached at the same time would split the results between them. The model attaches one.
- Session.StalledAfterDisconnect: the stall lasts only while no other `GET /events` handler attaches. Every handler drains the same global channel (main.go:54, main.go:94), so a later client or a reconnect would resume the sweep. `Session` has no action that attaches a second handler to a run. `Session.ReattachResumes` shows the first step of such a resumption.
- Admission.HandleScanFresh: a start that arrives after the clean-up but before the client has read every result discards the previous run's unread results and its `complete`. handleSSE reads the global channel on every select (main.go:94), so a first client still attached would switch to the new run's channel and never see its own run complete. The corrected handler neither keeps nor forwards those results (`Session.StartAfterCleanupAdmitted`).
- Go's `int` is 64 bits wide. `Total = targets * ports` cannot overflow for lists held in memory, so the counters are unbounded integers.

## Findings

| source | as written | input that shows it | evidently intended | confidence | as-written member | corrected member |
|---|---|---|---|---|---|---|
| main.go:40 | `resultChan` is made once, at program start, and every finished sweep closes it (main.go:109). Nothing makes a new one, yet the next start is accepted once `IsRunning` is false. | Start any scan and let it finish. A second start returns 200, and its sweep sends on the closed channel (main.go:125) or, with no pairs, closes it again (main.go:109). Both panic. | Each accepted run gets an open, empty channel, so a send after close cannot happen. Results of the previous run that no client has read yet are dropped, and a stream handler still attached moves on to the new channel. | high; not executed | Runs.SecondRunMeetsClosedChannel | Admission.HandleScanFresh |

`Admission.HandleScan` models the handler as written. `Admission.HandleScanFresh`
is the corrected handler, and `Session` builds its runs from it.
`Runs.SerialRuns` proves that with the fix any sequence of runs keeps every
send and close on an open channel. On the first run after start-up the two
handlers agree (`Admission.FreshAgreesAtBoot`).

=== FILE: admission.dfy ===
/** The `POST /scan` handler: the idle-to-running admission test on the progress
    record, the target list, and the counters a new run starts from. */
module Admission {
  import opened ScanTypes
  import CommaSplit
  import Channel

  /** The process-wide state the handlers share: the progress record and the
      global result channel. */
  datatype Server = Server(progress: Progress, results: Channel.Chan<ScanResult>)

  /** The state at program start: zero progress and a freshly made channel. */
  const Boot: Server := Server(Idle, Channel.Make())

  /** The JSON reply of the handler, as HTTP status and message. */
  datatype Reply = Reply(code: int, message: string)

  const AlreadyRunning: Reply := Reply(400, "Scan already in progress")
  const Started: Reply := Reply(200, "Scan started")

  /** The arguments the handler hands to the background sweep. */
  datatype Job = Job(ips: seq<string>, ports: seq<Port>)

  /** The handler's reply, the state it leaves, and the sweep it launches, if any. */
  datatype Admitted = Admitted(reply: Reply, next: Server, job: Option<Job>)

  /** The addresses to probe: the local addresses, then every comma-separated piece
      of the custom field, which contributes nothing when it is empty. */
  function Targets(localIPs: seq<string>, customIPs: string): (ips: seq<string>)
    ensures |ips| >= |localIPs| && ips[..|localIPs|] == localIPs
    ensures customIPs == "" ==> ips == localIPs
    ensures customIPs != "" ==>
      && |ips| == |localIPs| + CommaSplit.Count(customIPs) + 1
      && CommaSplit.CommaFree(ips[|localIPs|..])
      && CommaSplit.Join(ips[|localIPs|..]) == customIPs
  {
    if customIPs == "" then localIPs
    else
      var extra := CommaSplit.Split(customIPs);
      CommaSplit.SplitCount(customIPs);
      CommaSplit.JoinSplit(customIPs);
      assert (localIPs + extra)[|localIPs|..] == extra;
      localIPs + extra
  }

  /** `handleScan` as written: a request while a run is active is refused and changes
      nothing; otherwise the run is marked active, its counters are set from the
      target and port counts, and the global channel is kept as it is. */
  function HandleScan(s: Server, localIPs: seq<string>, customIPs: string, ports: seq<Port>): (a: Admitted)
    ensures s.progress.isRunning <==> a.reply == AlreadyRunning
    ensures s.progress.isRunning ==> a.next == s && a.job == None
    ensures !s.progress.isRunning ==>
      && a.reply == Started
      && a.job == Some(Job(Targets(localIPs, customIPs), ports))
      && a.next.progress.isRunning
      && a.next.progress.total == |a.job.value.ips| * |a.job.value.ports|
      && a.next.progress.current == 0
      && a.next.results == s.results
  {
    if s.progress.isRunning then Admitted(AlreadyRunning, s, None)
    else
      var ips := Targets(localIPs, customIPs);
      Admitted(Started, Server(Progress(|ips| * |ports|, 0, true), s.results), Some(Job(ips, ports)))
  }

  /** `handleScan` with the channel made afresh for every accepted run, so that the
      sweep it launches never meets a channel an earlier sweep has closed. */
  function HandleScanFresh(s: Server, localIPs: seq<string>, customIPs: string, ports: seq<Port>): (a: Admitted)
    ensures s.progress.isRunning <==> a.reply == AlreadyRunning
    ensures s.progress.isRunning ==> a.next == s && a.job == None
    ensures !s.progress.isRunning ==>
      && a.reply == Started
      && a.job == Some(Job(Targets(localIPs, customIPs), ports))
      && a.next.progress == Progress(|a.job.value.ips| * |a.job.value.ports|, 0, true)
      && a.next.results.items == [] && !a.next.results.closed
  {
    var a := HandleScan(s, localIPs, customIPs, ports);
    if a.job.Some? then a.(next := a.next.(results := Channel.Make())) else a
  }

  /** Both handlers agree on the first run after program start, when the global
      channel is still the one made at boot. */
  lemma FreshAgreesAtBoot(localIPs: seq<string>, customIPs: string, ports: seq<Port>)
    ensures HandleScanFresh(Boot, localIPs, customIPs, ports) == HandleScan(Boot, localIPs, customIPs, ports)
  {
  }

  /** Refusal is idempotent: repeating a refused request is refused again and still
      leaves the state untouched. */
  lemma {:induction false} RefusalIdempotent(s: Server, requests: seq<(seq<string>, string, seq<Port>)>)
    requires s.progress.isRunning
    ensures AfterRequests(s, requests) == s
    decreases |requests|
  {
    if requests != [] {
      RefusalIdempotent(s, requests[1..]);
    }
  }

  /** The state after a sequence of start requests handled one after another. */
  function AfterRequests(s: Server, requests: seq<(seq<string>, string, seq<Port>)>): Server
    decreases |requests|
  {
    if requests == [] then s
    else
      var (l, c, p) := requests[0];
      AfterRequests(HandleScan(s, l, c, p).next, requests[1..])
  }
}

=== FILE: channel.dfy ===
/** A Go channel seen from one sequential thread of control: the buffered values in
    FIFO order and whether `close` has been called. */
module Channel {

  datatype Chan<T> = Chan(items: seq<T>, closed: bool)

  /** The buffer size the result channel is made with. */
  const Capacity: nat := 100

  /** A send on a full buffer blocks until a receiver takes a value. */
  predicate Full<T>(c: Chan<T>)
  {
    |c.items| >= Capacity
  }

  /** `make(chan T, n)`: an open channel with nothing buffered. */
  function Make<T>(): Chan<T>
  {
    Chan([], false)
  }

  /** `ch <- x`. Sending on a closed channel panics in Go, so it is excluded here. */
  function Send<T>(c: Chan<T>, x: T): (c': Chan<T>)
    requires !c.closed
    ensures !c'.closed
    ensures |c'.items| == |c.items| + 1 && c'.items[..|c.items|] == c.items
    ensures c'.items[|c.items|] == x
  {
    Chan(c.items + [x], false)
  }

  /** `close(ch)`. Closing a closed channel panics in Go, so it is excluded here. */
  function Close<T>(c: Chan<T>): (c': Chan<T>)
    requires !c.closed
    ensures c'.closed && c'.items == c.items
  {
    Chan(c.items, true)
  }

  /** What `v, ok := <-ch` observes: a value (`ok` true), the closed-and-empty
      signal (`ok` false), or nothing yet (the receive would block). */
  datatype Recv<T> = Got(item: T, rest: Chan<T>) | Drained | Blocked

  function Receive<T>(c: Chan<T>): (r: Recv<T>)
    ensures r.Got? <==> c.items != []
    ensures r.Drained? <==> c.items == [] && c.closed
    ensures r.Got? ==> r.item == c.items[0] && r.rest.items == c.items[1..]
    ensures r.Got? ==> r.rest.closed == c.closed
  {
    if c.items != [] then Got(c.items[0], Chan(c.items[1..], c.closed))
    else if c.closed then Drained
    else Blocked
  }

  /** Sends every value of `xs`, in order. */
  function SendAll<T>(c: Chan<T>, xs: seq<T>): (c': Chan<T>)
    requires !c.closed
    ensures !c'.closed && c'.items == c.items + xs
    decreases |xs|
  {
    if xs == [] then c else SendAll(Send(c, xs[0]), xs[1..])
  }

  /** Receives until `n` values have arrived or the channel stops yielding values;
      returns the values received and the channel left behind. */
  function ReceiveUpTo<T>(c: Chan<T>, n: nat): (seq<T>, Chan<T>)
    decreases n
  {
    if n == 0 then ([], c)
    else match Receive(c)
      case Got(x, rest) =>
        var (xs, c') := ReceiveUpTo(rest, n - 1);
        ([x] + xs, c')
      case _ => ([], c)
  }

  /** Receiving as many times as there are buffered values yields them in the order
      they were buffered and leaves the channel empty with its closed flag unchanged. */
  lemma {:induction false} ReceiveAllBuffered<T>(c: Chan<T>)
    ensures ReceiveUpTo(c, |c.items|) == (c.items, Chan([], c.closed))
    decreases |c.items|
  {
    if c.items != [] {
      ReceiveAllBuffered(Chan(c.items[1..], c.closed));
      assert c.items == [c.items[0]] + c.items[1..];
    }
  }

  /** FIFO round trip: what is sent on a fresh channel and then closed is received in
      the same order, after which the receiver sees the closed signal. */
  lemma {:induction false} FifoRoundTrip<T>(xs: seq<T>)
    ensures var (ys, c) := ReceiveUpTo(Close(SendAll(Make<T>(), xs)), |xs|);
      ys == xs && Receive(c) == Drained
  {
    ReceiveAllBuffered(Close(SendAll(Make<T>(), xs)));
  }
}

=== FILE: comma_split.dfy ===
/** Splitting the `customIPs` form field on commas, with the semantics of Go's
    `strings.Split` for a one-character separator: every comma separates two pieces,
    empty pieces are kept, and a string without commas is one piece. */
module CommaSplit {

  const Comma: char := ','

  /** The number of commas in `s`. */
  function Count(s: string): nat
  {
    if s == [] then 0 else (if s[0] == Comma then 1 else 0) + Count(s[1..])
  }

  /** The pieces of `s` between commas, left to right. */
  function Split(s: string): (pieces: seq<string>)
    ensures |pieces| >= 1
    ensures forall i :: 0 <= i < |pieces| ==> Comma !in pieces[i]
  {
    if s == [] then [""]
    else
      var rest := Split(s[1..]);
      if s[0] == Comma then [""] + rest
      else [[s[0]] + rest[0]] + rest[1..]
  }

  /** The inverse of `Split`: the pieces glued back together with commas. */
  function Join(pieces: seq<string>): string
    requires |pieces| >= 1
  {
    if |pieces| == 1 then pieces[0] else pieces[0] + [Comma] + Join(pieces[1..])
  }

  /** No piece of `pieces` holds a comma. */
  predicate CommaFree(pieces: seq<string>)
  {
    forall i :: 0 <= i < |pieces| ==> Comma !in pieces[i]
  }

  /** Gluing the pieces back together gives the original text. */
  lemma {:induction false} JoinSplit(s: string)
    ensures Join(Split(s)) == s
    decreases |s|
  {
    if s != [] {
      var rest := Split(s[1..]);
      JoinSplit(s[1..]);
      if s[0] == Comma {
        assert Split(s) == [""] + rest;
        assert Join(Split(s)) == "" + [Comma] + Join(rest);
        assert s == [s[0]] + s[1..];
      } else {
        assert Split(s) == [[s[0]] + rest[0]] + rest[1..];
        JoinConsChar(s[0], rest);
        assert s == [s[0]] + s[1..];
      }
    }
  }

  /** Prepending a character to the first piece prepends it to the joined text. */
  lemma JoinConsChar(c: char, pieces: seq<string>)
    requires |pieces| >= 1
    ensures Join([[c] + pieces[0]] + pieces[1..]) == [c] + Join(pieces)
  {
    var ps := [[c] + pieces[0]] + pieces[1..];
    if |pieces| > 1 {
      var rest := Join(pieces[1..]);
      assert Join(ps) == ([c] + pieces[0]) + [Comma] + rest by {
        assert ps[0] == [c] + pieces[0] && ps[1..] == pieces[1..];
      }
      Regroup([c], pieces[0], [Comma], rest);
    } else {
      assert Join(ps) == ps[0];
    }
  }

  lemma Regroup<T>(a: seq<T>, b: seq<T>, c: seq<T>, d: seq<T>)
    ensures (a + b) + c + d == a + (b + c + d)
  {
  }

  /** Splitting comma-free pieces glued with commas gives the pieces back. */
  lemma {:induction false} SplitJoin(pieces: seq<string>)
    requires |pieces| >= 1 && CommaFree(pieces)
    ensures Split(Join(pieces)) == pieces
    decreases |pieces|
  {
    if |pieces| == 1 {
      SplitCommaFree(pieces[0]);
    } else {
      assert CommaFree(pieces[1..]) by {
        forall i | 0 <= i < |pieces[1..]| ensures Comma !in pieces[1..][i] {
          assert pieces[1..][i] == pieces[i + 1];
        }
      }
      SplitJoin(pieces[1..]);
      SplitBeforeComma(pieces[0], Join(pieces[1..]));
      assert pieces == [pieces[0]] + pieces[1..];
    }
  }

  /** A comma-free string is a single piece. */
  lemma {:induction false} SplitCommaFree(p: string)
    requires Comma !in p
    ensures Split(p) == [p]
    decreases |p|
  {
    if p != [] {
      SplitCommaFree(p[1..]);
      assert [p[0]] + p[1..] == p;
    }
  }

  /** A comma-free prefix followed by a comma is split off as the first piece. */
  lemma {:induction false} SplitBeforeComma(p: string, t: string)
    requires Comma !in p
    ensures Split(p + [Comma] + t) == [p] + Split(t)
    decreases |p|
  {
    var s := p + [Comma] + t;
    if p == [] {
      assert s[1..] == t;
    } else {
      SplitBeforeComma(p[1..], t);
      assert s[1..] == p[1..] + [Comma] + t;
      assert [p[0]] + p[1..] == p;
    }
  }

  /** Every comma adds exactly one piece. */
  lemma {:induction false} SplitCount(s: string)
    ensures |Split(s)| == Count(s) + 1
    decreases |s|
  {
    if s != [] {
      SplitCount(s[1..]);
    }
  }
}

=== FILE: runs.dfy ===
/** Whole runs taken one after another: start request, complete sweep, and a client
    that stays attached until the end. */
module Runs {
  import opened ScanTypes
  import opened Admission
  import Sweep
  import Streamer

  /** The first run after program start, with the sweep run to completion first and
      the client taking its turns only after the channel is closed, for at least one
      more turn than there are results: it receives one `message` per pair in
      target-major, port-minor order and then exactly one `complete`; the progress
      record ends at `Total = Current = |ips| * |ports|` and not running. The run with
      the client's turns interleaved with the sweep in any order is
      `Session.CompletedDeliversAll`. */
  lemma {:induction false} FirstRun(localIPs: seq<string>, customIPs: string, ports: seq<Port>, probe: Sweep.Probe, ws: seq<Streamer.Wake>)
    requires Streamer.AllReady(ws)
    requires |ws| > |Targets(localIPs, customIPs)| * |ports|
    ensures var a := HandleScan(Boot, localIPs, customIPs, ports);
      && a.reply == Started && a.job.Some?
      && var ips := a.job.value.ips;
         var t := Sweep.FullSweep(a.next, probe, ips, ports);
         && t.progress == Progress(|ips| * |ports|, |ips| * |ports|, false)
         && Streamer.Run(Streamer.View(Streamer.Attach, t.results), ws).stream
            == Streamer.Stream(Streamer.Completed,
                               Streamer.Messages(Sweep.Results(probe, Sweep.Pairs(ips, ports))) + [Streamer.Complete])
  {
    var a := HandleScan(Boot, localIPs, customIPs, ports);
    var ips := a.job.value.ips;
    var t := Sweep.FullSweep(a.next, probe, ips, ports);
    assert t.results.items == Sweep.Results(probe, Sweep.Pairs(ips, ports));
    Streamer.DrainClosed([], t.results, ws);
    assert [] + Streamer.Messages(t.results.items) == Streamer.Messages(t.results.items);
  }

  const Ssh: Port := Port("ssh", 22, "tcp")
  const Http: Port := Port("http", 80, "tcp")

  /** The probe when nothing listens anywhere: every connection attempt fails. */
  function NothingListening(ip: string, port: int): bool
  {
    false
  }

  /** Scanning the loopback address for ssh and http with nothing listening: two
      `closed` results, ssh first, then the completion marker; `Total` and `Current`
      end at 2 and the run is idle. */
  lemma {:induction false} LoopbackNothingListening(ws: seq<Streamer.Wake>)
    requires Streamer.AllReady(ws) && |ws| >= 3
    ensures var a := HandleScan(Boot, ["127.0.0.1"], "", [Ssh, Http]);
      && a.job == Some(Job(["127.0.0.1"], [Ssh, Http]))
      && var t := Sweep.FullSweep(a.next, NothingListening, ["127.0.0.1"], [Ssh, Http]);
         && t.progress == Progress(2, 2, false)
         && Streamer.Run(Streamer.View(Streamer.Attach, t.results), ws).stream.sent
            == [Streamer.Message(ScanResult("127.0.0.1", Ssh, ClosedStatus)),
                Streamer.Message(ScanResult("127.0.0.1", Http, ClosedStatus)),
                Streamer.Complete]
  {
    assert Targets(["127.0.0.1"], "") == ["127.0.0.1"];
    assert |Targets(["127.0.0.1"], "")| * |[Ssh, Http]| == 2;
    FirstRun(["127.0.0.1"], "", [Ssh, Http], NothingListening, ws);
    LoopbackResults();
  }

  /** The loopback sweep visits ssh, then http. */
  lemma LoopbackPairs()
    ensures Sweep.Pairs(["127.0.0.1"], [Ssh, Http])
         == [Sweep.Pair("127.0.0.1", Ssh), Sweep.Pair("127.0.0.1", Http)]
  {
    var ips: seq<string> := ["127.0.0.1"];
    assert ips[1..] == [];
    assert Sweep.Pairs(ips, [Ssh, Http]) == Sweep.Row("127.0.0.1", [Ssh, Http]) + [];
  }

  /** With nothing listening both loopback results are `closed`. */
  lemma LoopbackResults()
    ensures var rs := Sweep.Results(NothingListening, Sweep.Pairs(["127.0.0.1"], [Ssh, Http]));
      && rs == [ScanResult("127.0.0.1", Ssh, ClosedStatus), ScanResult("127.0.0.1", Http, ClosedStatus)]
      && Streamer.Messages(rs) == [Streamer.Message(rs[0]), Streamer.Message(rs[1])]
  {
    LoopbackPairs();
  }

  /** As written, the global channel outlives the run that closed it: after one
      complete run the handler admits a second run and hands its sweep the closed
      channel, whose first send, or whose deferred close, then fails. */
  lemma SecondRunMeetsClosedChannel(localIPs: seq<string>, customIPs: string, ports: seq<Port>,
                                    probe: Sweep.Probe,
                                    localIPs2: seq<string>, customIPs2: string, ports2: seq<Port>)
    ensures var a := HandleScan(Boot, localIPs, customIPs, ports);
      && a.job.Some?
      && var done := Sweep.FullSweep(a.next, probe, a.job.value.ips, ports);
         var again := HandleScan(done, localIPs2, customIPs2, ports2);
         again.reply == Started && again.job.Some? && again.next.results.closed
  {
  }

  /** One start request. */
  datatype Request = Request(localIPs: seq<string>, customIPs: string, ports: seq<Port>)

  /** The pairs the request's run visits. */
  function PairsOf(r: Request): seq<Sweep.Pair>
  {
    Sweep.Pairs(Targets(r.localIPs, r.customIPs), r.ports)
  }

  /** One run from an idle state with a fresh channel: it is admitted, and its sweep
      leaves the program idle with a closed channel holding exactly its results. */
  lemma FreshRun(s: Server, probe: Sweep.Probe, r: Request)
    requires !s.progress.isRunning
    ensures var a := HandleScanFresh(s, r.localIPs, r.customIPs, r.ports);
      && a.job.Some? && !a.next.results.closed
      && var done := Sweep.FullSweep(a.next, probe, a.job.value.ips, a.job.value.ports);
         && done.results.closed
         && done.results.items == Sweep.Results(probe, PairsOf(r))
         && done.progress == Progress(|PairsOf(r)|, |PairsOf(r)|, false)
  {
    var a := HandleScanFresh(s, r.localIPs, r.customIPs, r.ports);
    assert a.job.value.ips == Targets(r.localIPs, r.customIPs) && a.job.value.ports == r.ports;
    assert [] + Sweep.Results(probe, PairsOf(r)) == Sweep.Results(probe, PairsOf(r));
  }

  /** Runs taken one after another with a fresh channel per run. Every sweep finds an
      open channel, every start is admitted, and afterwards the program is idle again
      with a closed channel holding exactly the last run's results. */
  function SerialRuns(s: Server, probe: Sweep.Probe, reqs: seq<Request>): (t: Server)
    requires !s.progress.isRunning
    ensures !t.progress.isRunning
    ensures reqs == [] ==> t == s
    ensures reqs != [] ==>
      var last := PairsOf(reqs[|reqs| - 1]);
      && t.results.closed
      && t.results.items == Sweep.Results(probe, last)
      && t.progress == Progress(|last|, |last|, false)
    decreases |reqs|
  {
    if reqs == [] then s
    else
      var r := reqs[0];
      FreshRun(s, probe, r);
      var a := HandleScanFresh(s, r.localIPs, r.customIPs, r.ports);
      var done := Sweep.FullSweep(a.next, probe, a.job.value.ips, a.job.value.ports);
      assert |reqs| > 1 ==> reqs[1..][|reqs[1..]| - 1] == reqs[|reqs| - 1];
      SerialRuns(done, probe, reqs[1..])
  }
}

=== FILE: scan_types.dfy ===
/** The records the port checker passes around: the catalogue entry `Port`,
    the streamed `ScanResult`, and the process-wide progress record. */
module ScanTypes {

  datatype Option<+T> = None | Some(value: T)

  /** One entry of the port catalogue: a label, a TCP port number and a protocol tag. */
  datatype Port = Port(name: string, port: int, protocol: string)

  /** The outcome of probing one (address, port) pair; `status` is the text sent to the client. */
  datatype ScanResult = ScanResult(ip: string, port: Port, status: string)

  /** The shared `scanProgress` record, without its mutex. Go's `int` is 64 bits wide;
      the counters here never come near that bound for a catalogue held in memory. */
  datatype Progress = Progress(total: int, current: int, isRunning: bool)

  /** The zero value the program starts from. */
  const Idle: Progress := Progress(0, 0, false)

  const OpenStatus: string := "open"
  const ClosedStatus: string := "closed"

  /** The counter invariant a status reader may rely on. */
  predicate InBounds(p: Progress)
  {
    0 <= p.current <= p.total
  }
}

=== FILE: session.dfy ===
/** One accepted run with the background sweep and an attached event stream
    interleaved in any order: the sweep goroutine and the stream handler share only
    the progress record and the result channel. */
module Session {
  import opened ScanTypes
  import Channel
  import opened Admission
  import Sweep
  import Streamer

  /** The program during a run: the shared state, the pairs the sweep has still to
      visit, whether the sweep goroutine is still inside `scanPorts`, and the stream
      handler. */
  datatype System = System(server: Server, pending: seq<Sweep.Pair>, sweeping: bool, stream: Streamer.Stream)

  /** What can happen next: the sweep handles its next pair, the sweep runs its
      deferred clean-up, or the stream handler takes one turn of its loop. The
      sweep's send blocks while the buffer is full, so `Produce` is then not enabled. */
  datatype Action = Produce | Finish | Consume(wake: Streamer.Wake)

  /** While the sweep is inside `scanPorts` the channel it sends on is open. */
  predicate Live(sys: System)
  {
    sys.sweeping ==> !sys.server.results.closed
  }

  /** The program state right after an accepted start, with a stream handler attached. */
  function Launch(a: Admitted): (sys: System)
    requires a.job.Some? && !a.next.results.closed
    ensures Live(sys) && sys.sweeping
  {
    System(a.next, Sweep.Pairs(a.job.value.ips, a.job.value.ports), true, Streamer.Attach)
  }

  /** One action; an action that is not enabled changes nothing. */
  function Act(sys: System, probe: Sweep.Probe, a: Action): (sys': System)
    requires Live(sys)
    ensures Live(sys')
  {
    match a
    case Produce =>
      if sys.sweeping && sys.pending != [] && !Channel.Full(sys.server.results) then
        sys.(server := Sweep.Step(sys.server, probe, sys.pending[0]), pending := sys.pending[1..])
      else sys
    case Finish =>
      if sys.sweeping && sys.pending == [] then
        sys.(server := Sweep.Cleanup(sys.server), sweeping := false)
      else sys
    case Consume(w) =>
      var v := Streamer.Step(Streamer.View(sys.stream, sys.server.results), w);
      sys.(server := sys.server.(results := v.results), stream := v.stream)
  }

  /** The program after a schedule of actions. */
  function Execute(sys: System, probe: Sweep.Probe, acts: seq<Action>): (sys': System)
    requires Live(sys)
    ensures Live(sys')
    decreases |acts|
  {
    if acts == [] then sys else Execute(Act(sys, probe, acts[0]), probe, acts[1..])
  }

  /** The run invariant for a sweep over `all`: what the client has received, then
      what is queued, then what is still to be probed, is the full sweep in order;
      the counter stands at the number of pairs handled; the run is marked active
      exactly while the sweep has not cleaned up; and the stream is well formed. */
  predicate Inv(sys: System, probe: Sweep.Probe, all: seq<Sweep.Pair>)
  {
    && Live(sys)
    && Streamer.Consistent(Streamer.View(sys.stream, sys.server.results))
    && |sys.pending| <= |all| && sys.pending == all[|all| - |sys.pending|..]
    && sys.server.progress == Progress(|all|, |all| - |sys.pending|, sys.sweeping)
    && (!sys.sweeping ==> sys.pending == [] && sys.server.results.closed)
    && Streamer.Delivered(sys.stream.sent) + sys.server.results.items + Sweep.Results(probe, sys.pending)
       == Sweep.Results(probe, all)
  }

  /** An accepted start establishes the invariant for its own sweep. */
  lemma LaunchEstablishes(s: Server, localIPs: seq<string>, customIPs: string, ports: seq<Port>, probe: Sweep.Probe)
    requires !s.progress.isRunning
    ensures var a := HandleScanFresh(s, localIPs, customIPs, ports);
      && a.job.Some? && !a.next.results.closed
      && Inv(Launch(a), probe, Sweep.Pairs(a.job.value.ips, a.job.value.ports))
  {
    var a := HandleScanFresh(s, localIPs, customIPs, ports);
    var all := Sweep.Pairs(a.job.value.ips, a.job.value.ports);
    assert all[0..] == all;
  }

  /** Handling the next pair keeps the invariant: its result moves from the pending
      part to the back of the queue and the counter moves up by one. */
  lemma ProducePreserves(sys: System, probe: Sweep.Probe, all: seq<Sweep.Pair>)
    requires Inv(sys, probe, all)
    ensures Inv(Act(sys, probe, Produce), probe, all)
    ensures sys.sweeping && sys.pending != [] && !Channel.Full(sys.server.results) ==>
      var n := Act(sys, probe, Produce);
      && n.pending == sys.pending[1..]
      && n.server.results.items == sys.server.results.items + [Sweep.Examine(probe, sys.pending[0])]
      && n.server.progress.current == sys.server.progress.current + 1
      && n.stream == sys.stream
  {
    if sys.sweeping && sys.pending != [] && !Channel.Full(sys.server.results) {
      var p := sys.pending[0];
      var r := Sweep.Examine(probe, p);
      var server' := Sweep.Step(sys.server, probe, p);
      assert server'.results == Channel.Chan(sys.server.results.items + [r], false);
      assert server'.progress == sys.server.progress.(current := sys.server.progress.current + 1);
      assert Act(sys, probe, Produce) == System(server', sys.pending[1..], true, sys.stream);
      assert Sweep.Results(probe, sys.pending) == [r] + Sweep.Results(probe, sys.pending[1..]);
      MoveToQueue(Streamer.Delivered(sys.stream.sent), sys.server.results.items, r,
                  Sweep.Results(probe, sys.pending[1..]));
      assert sys.pending[1..] == all[|all| - |sys.pending[1..]|..];
    }
  }

  lemma MoveToQueue<T>(got: seq<T>, queued: seq<T>, r: T, later: seq<T>)
    ensures got + (queued + [r]) + later == got + queued + ([r] + later)
  {
  }

  /** The clean-up keeps the invariant: the run is left idle with the channel closed and
      the queued results kept. */
  lemma FinishPreserves(sys: System, probe: Sweep.Probe, all: seq<Sweep.Pair>)
    requires Inv(sys, probe, all)
    ensures Inv(Act(sys, probe, Finish), probe, all)
    ensures sys.sweeping && sys.pending == [] ==>
      var n := Act(sys, probe, Finish);
      && !n.sweeping && !n.server.progress.isRunning
      && n.server.results.closed && n.server.results.items == sys.server.results.items
      && n.stream == sys.stream
  {
  }

  lemma ConsumePreserves(sys: System, probe: Sweep.Probe, all: seq<Sweep.Pair>, w: Streamer.Wake)
    requires Inv(sys, probe, all)
    ensures Inv(Act(sys, probe, Consume(w)), probe, all)
  {
    Streamer.StepPreserves(Streamer.View(sys.stream, sys.server.results), w);
  }

  /** Every action keeps the invariant. */
  lemma ActPreserves(sys: System, probe: Sweep.Probe, all: seq<Sweep.Pair>, a: Action)
    requires Inv(sys, probe, all)
    ensures Inv(Act(sys, probe, a), probe, all)
  {
    match a
    case Produce => ProducePreserves(sys, probe, all);
    case Finish => FinishPreserves(sys, probe, all);
    case Consume(w) => ConsumePreserves(sys, probe, all, w);
  }

  /** Every schedule keeps the invariant. */
  lemma {:induction false} ExecutePreserves(sys: System, probe: Sweep.Probe, all: seq<Sweep.Pair>, acts: seq<Action>)
    requires Inv(sys, probe, all)
    ensures Inv(Execute(sys, probe, acts), probe, all)
    decreases |acts|
  {
    if acts != [] {
      ActPreserves(sys, probe, all, acts[0]);
      ExecutePreserves(Act(sys, probe, acts[0]), probe, all, acts[1..]);
    }
  }

  /** At every point of the run `0 <= Current <= Total`, and the results the client has
      received are the first ones of the sweep, in sweep order. */
  lemma DeliveredSoFar(sys: System, probe: Sweep.Probe, all: seq<Sweep.Pair>)
    requires Inv(sys, probe, all)
    ensures InBounds(sys.server.progress)
    ensures var got := Streamer.Delivered(sys.stream.sent);
      |got| <= |all| && got == Sweep.Results(probe, all)[..|got|]
  {
    var got := Streamer.Delivered(sys.stream.sent);
    var queued := sys.server.results.items;
    var later := Sweep.Results(probe, sys.pending);
    PrefixOfConcat(got, queued, later, Sweep.Results(probe, all));
  }

  lemma PrefixOfConcat<T>(a: seq<T>, b: seq<T>, c: seq<T>, whole: seq<T>)
    requires a + b + c == whole
    ensures |a| <= |whole| && whole[..|a|] == a
  {
    assert whole == a + (b + c);
  }

  /** A stream of `message` events is the `message` events of what it delivers. */
  lemma {:induction false} AllMessages(es: seq<Streamer.Event>)
    requires forall k :: 0 <= k < |es| ==> es[k].Message?
    ensures es == Streamer.Messages(Streamer.Delivered(es))
    decreases |es|
  {
    if es != [] {
      AllMessages(es[1..]);
      var rest := Streamer.Delivered(es[1..]);
      assert Streamer.Delivered(es) == [es[0].result] + rest;
      assert Streamer.Messages([es[0].result] + rest) == [es[0]] + Streamer.Messages(rest);
      assert es == [es[0]] + es[1..];
    }
  }

  /** Once the client has received `complete`, it has received one `message` per pair of
      the sweep, in target-major, port-minor order, followed by exactly that one
      `complete`; the counter stands at `Total` and the run is no longer marked active. */
  lemma CompletedDeliversAll(sys: System, probe: Sweep.Probe, all: seq<Sweep.Pair>)
    requires Inv(sys, probe, all)
    requires sys.stream.phase == Streamer.Completed
    ensures sys.stream.sent == Streamer.Messages(Sweep.Results(probe, all)) + [Streamer.Complete]
    ensures sys.server.progress == Progress(|all|, |all|, false)
  {
    var sent := sys.stream.sent;
    var body := sent[..|sent| - 1];
    assert sent == body + [Streamer.Complete];
    assert forall k :: 0 <= k < |body| ==> body[k].Message? by {
      forall k | 0 <= k < |body| ensures body[k].Message? {
        assert body[k] == sent[k];
      }
    }
    AllMessages(body);
    Streamer.DeliveredSnoc(body, Streamer.Complete);
    assert Streamer.Delivered(sent) == Sweep.Results(probe, all);
  }

  /** The schedule in which the sweep handles `n` pairs in a row. */
  function Produces(n: nat): (acts: seq<Action>)
    ensures |acts| == n && forall k :: 0 <= k < n ==> acts[k] == Produce
  {
    seq(n, k => Produce)
  }

  /** While the queued and the remaining results fit in the buffer, the sweep needs
      nobody listening: on its own it handles every remaining pair and cleans up,
      leaving `Current = Total`, the run idle and the channel closed. */
  lemma {:induction false} SweepFinishesAlone(sys: System, probe: Sweep.Probe, all: seq<Sweep.Pair>)
    requires Inv(sys, probe, all)
    requires |sys.server.results.items| + |sys.pending| <= Channel.Capacity
    ensures var done := Execute(sys, probe, Produces(|sys.pending|) + [Finish]);
      done.server.progress == Progress(|all|, |all|, false) && done.server.results.closed
    decreases |sys.pending|
  {
    var acts := Produces(|sys.pending|) + [Finish];
    if sys.pending == [] {
      assert acts == [Finish];
      FinishPreserves(sys, probe, all);
      assert Execute(sys, probe, acts) == Act(sys, probe, Finish);
    } else {
      var next := Act(sys, probe, Produce);
      ProduceStep(sys, probe, all);
      SweepFinishesAlone(next, probe, all);
      assert acts[0] == Produce && acts[1..] == Produces(|next.pending|) + [Finish];
      assert Execute(sys, probe, acts) == Execute(next, probe, acts[1..]);
    }
  }

  /** With room in the buffer, the sweep's next pair goes onto the queue. */
  lemma ProduceStep(sys: System, probe: Sweep.Probe, all: seq<Sweep.Pair>)
    requires Inv(sys, probe, all) && sys.pending != []
    requires |sys.server.results.items| + |sys.pending| <= Channel.Capacity
    ensures var next := Act(sys, probe, Produce);
      && Inv(next, probe, all)
      && next.pending == sys.pending[1..]
      && |next.server.results.items| + |next.pending| <= Channel.Capacity
  {
    assert !Channel.Full(sys.server.results);
    ProducePreserves(sys, probe, all);
  }

  /** `n` rounds in which the stream handler reads once and the sweep then sends once. */
  function Lockstep(n: nat): (acts: seq<Action>)
    ensures |acts| == 2 * n
    decreases n
  {
    if n == 0 then [] else [Consume(Streamer.ResultReady), Produce] + Lockstep(n - 1)
  }

  /** `m` turns of the stream handler, each finding its wait over. */
  function Readies(m: nat): (acts: seq<Action>)
    ensures |acts| == m && forall k :: 0 <= k < m ==> acts[k] == Consume(Streamer.ResultReady)
  {
    seq(m, k => Consume(Streamer.ResultReady))
  }

  lemma {:induction false} ExecuteAppend(sys: System, probe: Sweep.Probe, a: seq<Action>, b: seq<Action>)
    requires Live(sys)
    ensures Execute(sys, probe, a + b) == Execute(Execute(sys, probe, a), probe, b)
    decreases |a|
  {
    if a != [] {
      assert (a + b)[0] == a[0] && (a + b)[1..] == a[1..] + b;
      ExecuteAppend(Act(sys, probe, a[0]), probe, a[1..], b);
    } else {
      assert a + b == b;
    }
  }

  /** One lock-step round: the handler forwards the head of the queue, if any, and keeps
      listening; the sweep then finds room in the buffer and sends its next result. */
  lemma Round(sys: System, probe: Sweep.Probe, all: seq<Sweep.Pair>)
    requires Inv(sys, probe, all) && sys.stream.phase == Streamer.Listening
    requires sys.pending != [] && |sys.server.results.items| <= Channel.Capacity
    ensures var next := Execute(sys, probe, [Consume(Streamer.ResultReady), Produce]);
      && Inv(next, probe, all) && next.stream.phase == Streamer.Listening
      && next.pending == sys.pending[1..] && |next.server.results.items| <= Channel.Capacity
  {
    var read := Act(sys, probe, Consume(Streamer.ResultReady));
    ConsumePreserves(sys, probe, all, Streamer.ResultReady);
    assert read.stream.phase == Streamer.Listening && read.pending == sys.pending && read.sweeping;
    assert |read.server.results.items| < Channel.Capacity;
    ProducePreserves(read, probe, all);
    var sent := Act(read, probe, Produce);
    assert sent.pending == sys.pending[1..] && sent.stream == read.stream;
    assert [Consume(Streamer.ResultReady), Produce][1..] == [Produce];
    assert Execute(sys, probe, [Consume(Streamer.ResultReady), Produce]) == sent;
  }

  /** Lock-step rounds over every remaining pair leave the sweep with nothing to visit
      and the handler still listening. */
  lemma {:induction false} LockstepRounds(sys: System, probe: Sweep.Probe, all: seq<Sweep.Pair>)
    requires Inv(sys, probe, all) && sys.stream.phase == Streamer.Listening
    requires |sys.server.results.items| <= Channel.Capacity
    ensures var next := Execute(sys, probe, Lockstep(|sys.pending|));
      && Inv(next, probe, all) && next.stream.phase == Streamer.Listening
      && next.pending == [] && |next.server.results.items| <= Channel.Capacity
    decreases |sys.pending|
  {
    if sys.pending != [] {
      var round := [Consume(Streamer.ResultReady), Produce];
      Round(sys, probe, all);
      var next := Execute(sys, probe, round);
      LockstepRounds(next, probe, all);
      assert |next.pending| == |sys.pending| - 1;
      assert Lockstep(|sys.pending|) == round + Lockstep(|next.pending|);
      ExecuteAppend(sys, probe, round, Lockstep(|next.pending|));
    }
  }

  /** After the clean-up, a handler that keeps listening for more turns than there are
      queued results drains the queue and writes `complete`. */
  lemma {:induction false} DrainAfterCleanup(sys: System, probe: Sweep.Probe, all: seq<Sweep.Pair>, m: nat)
    requires Inv(sys, probe, all) && sys.stream.phase == Streamer.Listening && !sys.sweeping
    requires m > |sys.server.results.items|
    ensures Execute(sys, probe, Readies(m)).stream.phase == Streamer.Completed
    decreases m
  {
    var read := Act(sys, probe, Consume(Streamer.ResultReady));
    ConsumePreserves(sys, probe, all, Streamer.ResultReady);
    assert Readies(m)[0] == Consume(Streamer.ResultReady) && Readies(m)[1..] == Readies(m - 1);
    if sys.server.results.items == [] {
      assert read.stream.phase == Streamer.Completed;
      ReturnedStays(read, probe, Readies(m - 1));
    } else {
      DrainAfterCleanup(read, probe, all, m - 1);
    }
  }

  /** Once the sweep has cleaned up and the handler has returned, nothing changes. */
  lemma {:induction false} ReturnedStays(sys: System, probe: Sweep.Probe, acts: seq<Action>)
    requires !sys.sweeping && sys.stream.phase != Streamer.Listening
    ensures Execute(sys, probe, acts) == sys
    decreases |acts|
  {
    if acts != [] {
      assert Act(sys, probe, acts[0]) == sys;
      ReturnedStays(sys, probe, acts[1..]);
    }
  }

  /** A client that stays attached and reads each result as it arrives gets the whole
      sweep: with the handler reading once before every send, the sweep never finds the
      buffer full, and after the clean-up the handler drains what is left. The client
      receives one `message` per pair in sweep order, then one `complete`; the run ends
      idle with `Current = Total`. This holds for any number of pairs. */
  lemma AttachedClientGetsAll(sys: System, probe: Sweep.Probe, all: seq<Sweep.Pair>)
    requires Inv(sys, probe, all) && sys.stream.phase == Streamer.Listening
    requires |sys.server.results.items| <= Channel.Capacity
    ensures var done := Execute(sys, probe, Lockstep(|sys.pending|) + [Finish] + Readies(Channel.Capacity + 1));
      && done.stream.phase == Streamer.Completed
      && done.stream.sent == Streamer.Messages(Sweep.Results(probe, all)) + [Streamer.Complete]
      && done.server.progress == Progress(|all|, |all|, false)
  {
    var rounds := Execute(sys, probe, Lockstep(|sys.pending|));
    LockstepRounds(sys, probe, all);
    var finished := Act(rounds, probe, Finish);
    FinishPreserves(rounds, probe, all);
    assert Execute(rounds, probe, [Finish]) == finished;
    DrainAfterCleanup(finished, probe, all, Channel.Capacity + 1);
    ExecuteAppend(sys, probe, Lockstep(|sys.pending|), [Finish]);
    ExecuteAppend(sys, probe, Lockstep(|sys.pending|) + [Finish], Readies(Channel.Capacity + 1));
    var done := Execute(finished, probe, Readies(Channel.Capacity + 1));
    ExecutePreserves(finished, probe, all, Readies(Channel.Capacity + 1));
    CompletedDeliversAll(done, probe, all);
  }

  /** Every accepted start, whatever its number of pairs, has a schedule Go can run in
      which the attached client receives every result in sweep order and then `complete`. */
  lemma LaunchDeliversAll(s: Server, localIPs: seq<string>, customIPs: string, ports: seq<Port>, probe: Sweep.Probe)
    requires !s.progress.isRunning
    ensures var a := HandleScanFresh(s, localIPs, customIPs, ports);
      && a.job.Some? && !a.next.results.closed
      && var all := Sweep.Pairs(a.job.value.ips, a.job.value.ports);
         var done := Execute(Launch(a), probe, Lockstep(|all|) + [Finish] + Readies(Channel.Capacity + 1));
         && done.stream.sent == Streamer.Messages(Sweep.Results(probe, all)) + [Streamer.Complete]
         && done.server.progress == Progress(|all|, |all|, false)
  {
    var a := HandleScanFresh(s, localIPs, customIPs, ports);
    LaunchEstablishes(s, localIPs, customIPs, ports, probe);
    AttachedClientGetsAll(Launch(a), probe, Sweep.Pairs(a.job.value.ips, a.job.value.ports));
  }

  /** The part of the state the sweep and the status reader see. */
  datatype Producer = Producer(progress: Progress, pending: seq<Sweep.Pair>, sweeping: bool, closed: bool)

  function ProducerOf(sys: System): Producer
  {
    Producer(sys.server.progress, sys.pending, sys.sweeping, sys.server.results.closed)
  }

  /** The schedule with the stream handler's turns removed. */
  function WithoutStream(acts: seq<Action>): (r: seq<Action>)
    ensures forall k :: 0 <= k < |r| ==> !r[k].Consume?
    decreases |acts|
  {
    if acts == [] then []
    else if acts[0].Consume? then WithoutStream(acts[1..])
    else [acts[0]] + WithoutStream(acts[1..])
  }

  /** While the queued and the remaining results fit in the buffer, the stream handler
      cannot influence the sweep: whatever it does, and whether or not the client
      disconnects, the progress record and the sweep's position come out as if the
      handler had never run. */
  lemma {:induction false} SweepIgnoresStream(s1: System, s2: System, probe: Sweep.Probe, acts: seq<Action>)
    requires Live(s1) && Live(s2) && ProducerOf(s1) == ProducerOf(s2)
    requires |s1.server.results.items| + |s1.pending| <= Channel.Capacity
    requires |s2.server.results.items| + |s2.pending| <= Channel.Capacity
    ensures ProducerOf(Execute(s1, probe, acts)) == ProducerOf(Execute(s2, probe, WithoutStream(acts)))
    decreases |acts|
  {
    if acts != [] {
      var s1' := Act(s1, probe, acts[0]);
      if acts[0].Consume? {
        SweepIgnoresStream(s1', s2, probe, acts[1..]);
      } else {
        var s2' := Act(s2, probe, acts[0]);
        assert WithoutStream(acts) == [acts[0]] + WithoutStream(acts[1..]);
        assert ([acts[0]] + WithoutStream(acts[1..]))[1..] == WithoutStream(acts[1..]);
        SweepIgnoresStream(s1', s2', probe, acts[1..]);
      }
    }
  }

  /** Beyond the buffer the reader is what lets the sweep advance: once the client has
      gone and the buffer is full with pairs still to visit, no schedule of this run's
      actions changes anything, so the run stays marked active with `Current < Total`
      until another stream handler attaches (`ReattachResumes`). */
  lemma {:induction false} StalledAfterDisconnect(sys: System, probe: Sweep.Probe, acts: seq<Action>)
    requires Live(sys) && sys.sweeping && sys.pending != []
    requires sys.stream.phase == Streamer.Disconnected && Channel.Full(sys.server.results)
    ensures Execute(sys, probe, acts) == sys
    decreases |acts|
  {
    if acts != [] {
      assert Act(sys, probe, acts[0]) == sys;
      StalledAfterDisconnect(sys, probe, acts[1..]);
    }
  }

  /** A stream handler attached afresh to a run stalled on a full buffer reads one queued
      result, which makes room for the sweep's next send. */
  lemma ReattachResumes(sys: System, probe: Sweep.Probe)
    requires Live(sys) && sys.sweeping && sys.pending != []
    requires |sys.server.results.items| == Channel.Capacity
    ensures var next := Execute(sys.(stream := Streamer.Attach), probe, [Consume(Streamer.ResultReady), Produce]);
      && next.pending == sys.pending[1..]
      && next.server.progress.current == sys.server.progress.current + 1
      && next.stream.sent == [Streamer.Message(sys.server.results.items[0])]
  {
    var joined := sys.(stream := Streamer.Attach);
    var read := Act(joined, probe, Consume(Streamer.ResultReady));
    assert |read.server.results.items| == Channel.Capacity - 1;
    assert [Consume(Streamer.ResultReady), Produce][1..] == [Produce];
  }

  /** A start request at any point of the run is refused and changes nothing. */
  lemma StartDuringRunRefused(sys: System, probe: Sweep.Probe, all: seq<Sweep.Pair>,
                              localIPs: seq<string>, customIPs: string, ports: seq<Port>)
    requires Inv(sys, probe, all) && sys.sweeping
    ensures HandleScan(sys.server, localIPs, customIPs, ports) == Admitted(AlreadyRunning, sys.server, None)
    ensures HandleScanFresh(sys.server, localIPs, customIPs, ports) == Admitted(AlreadyRunning, sys.server, None)
  {
  }

  /** After the clean-up the run is no longer marked active, so a start is admitted even
      while results of this run still wait in the queue for the client. As written the new
      run is handed the same channel, closed, with those results still in it; with a
      fresh channel they are dropped. */
  lemma StartAfterCleanupAdmitted(sys: System, probe: Sweep.Probe, all: seq<Sweep.Pair>,
                                  localIPs: seq<string>, customIPs: string, ports: seq<Port>)
    requires Inv(sys, probe, all) && !sys.sweeping
    ensures var a := HandleScan(sys.server, localIPs, customIPs, ports);
      && a.reply == Started
      && a.next.results == sys.server.results && a.next.results.closed
    ensures var b := HandleScanFresh(sys.server, localIPs, customIPs, ports);
      && b.reply == Started
      && b.next.results.items == [] && !b.next.results.closed
  {
  }
}

=== FILE: streamer.dfy ===
/** The `GET /events` handler: a loop that waits on the result channel and on the
    client's disconnect notice, forwards each result as a `message` event, sends one
    `complete` event once the channel is closed and drained, and returns without
    further output when the client has gone. */
module Streamer {
  import opened ScanTypes
  import Channel

  /** A server-sent event: one result, or the completion marker. */
  datatype Event = Message(result: ScanResult) | Complete

  /** The SSE event name each kind of event is sent under. */
  function Name(e: Event): (n: string)
    ensures n == "message" <==> e.Message?
    ensures n == "complete" <==> e == Complete
  {
    if e.Message? then "message" else "complete"
  }

  /** Which arm of the `select` fires on one turn of the loop. When both arms are
      ready Go picks one at random, so every schedule of wakes is possible. */
  datatype Wake = ResultReady | ClientGone

  /** Listening: inside the loop. Completed and Disconnected: the handler has returned. */
  datatype Phase = Listening | Completed | Disconnected

  /** The handler's position and the events it has written so far. */
  datatype Stream = Stream(phase: Phase, sent: seq<Event>)

  /** A handler that has just been attached. */
  const Attach: Stream := Stream(Listening, [])

  /** The handler together with the channel it drains. */
  datatype View = View(stream: Stream, results: Channel.Chan<ScanResult>)

  /** The `message` events for a sequence of results. */
  function Messages(rs: seq<ScanResult>): (es: seq<Event>)
    ensures |es| == |rs|
  {
    seq(|rs|, k requires 0 <= k < |rs| => Message(rs[k]))
  }

  /** The results carried by the `message` events of `es`, in order. */
  function Delivered(es: seq<Event>): seq<ScanResult>
    decreases |es|
  {
    if es == [] then []
    else (if es[0].Message? then [es[0].result] else []) + Delivered(es[1..])
  }

  lemma {:induction false} DeliveredSnoc(es: seq<Event>, e: Event)
    ensures Delivered(es + [e]) == Delivered(es) + (if e.Message? then [e.result] else [])
    decreases |es|
  {
    if es == [] {
      assert es + [e] == [e];
    } else {
      DeliveredSnoc(es[1..], e);
      assert (es + [e])[0] == es[0] && (es + [e])[1..] == es[1..] + [e];
    }
  }

  /** `Delivered` undoes `Messages`. */
  lemma {:induction false} DeliveredMessages(rs: seq<ScanResult>)
    ensures Delivered(Messages(rs)) == rs
    decreases |rs|
  {
    if rs != [] {
      DeliveredMessages(rs[1..]);
      assert Messages(rs)[1..] == Messages(rs[1..]);
      assert rs == [rs[0]] + rs[1..];
    }
  }

  /** Every event but the last is a `message`, and the last is `complete` exactly when
      the handler returned through the completion arm. */
  predicate WellFormed(st: Stream)
  {
    && (forall k :: 0 <= k < |st.sent| - 1 ==> st.sent[k].Message?)
    && (st.phase == Completed <==> |st.sent| > 0 && st.sent[|st.sent| - 1] == Complete)
  }

  /** The handler returned through the completion arm only when the channel it drains
      is closed and empty. */
  predicate Consistent(v: View)
  {
    && WellFormed(v.stream)
    && (v.stream.phase == Completed ==> v.results.items == [] && v.results.closed)
  }

  /** One turn of the loop. A ready result is written at once as a `message` and leaves
      the queue; the closed signal is written as `complete` and ends the loop; a
      disconnect ends the loop with nothing written. A receive that would block writes
      nothing and keeps waiting. Once the handler has returned nothing happens. The
      handler never closes the channel. */
  function Step(v: View, w: Wake): (v': View)
    ensures v.stream.phase != Listening ==> v' == v
    ensures w == ClientGone ==> v'.stream.sent == v.stream.sent
    ensures v.stream.phase == Listening && w == ClientGone ==> v'.stream.phase == Disconnected
    ensures v'.results.closed == v.results.closed
    ensures |v'.results.items| <= |v.results.items|
    ensures v.stream.phase == Listening && w == ResultReady && v.results.items != [] ==>
      && v'.stream == Stream(Listening, v.stream.sent + [Message(v.results.items[0])])
      && v'.results.items == v.results.items[1..]
    ensures v.stream.phase == Listening && w == ResultReady && v.results.items == [] && v.results.closed ==>
      v'.stream == Stream(Completed, v.stream.sent + [Complete]) && v'.results == v.results
    ensures v.stream.phase == Listening && w == ResultReady && v.results.items == [] && !v.results.closed ==>
      v' == v
  {
    if v.stream.phase != Listening then v
    else match w
      case ClientGone => View(Stream(Disconnected, v.stream.sent), v.results)
      case ResultReady =>
        match Channel.Receive(v.results)
        case Got(r, rest) =>
          View(Stream(Listening, v.stream.sent + [Message(r)]), rest)
        case Drained =>
          View(Stream(Completed, v.stream.sent + [Complete]), v.results)
        case Blocked => v
  }

  /** One turn only appends events; a result leaves the queue exactly when it is
      delivered; the shape of the event sequence is kept. */
  lemma StepPreserves(v: View, w: Wake)
    ensures |Step(v, w).stream.sent| >= |v.stream.sent|
    ensures Step(v, w).stream.sent[..|v.stream.sent|] == v.stream.sent
    ensures Delivered(Step(v, w).stream.sent) + Step(v, w).results.items
         == Delivered(v.stream.sent) + v.results.items
    ensures Consistent(v) ==> Consistent(Step(v, w))
  {
    if v.stream.phase == Listening && w == ResultReady {
      match Channel.Receive(v.results)
      case Got(r, rest) => DeliverPreserves(v, r, rest);
      case Drained => CompletePreserves(v);
      case Blocked =>
    }
  }

  /** Writing the head of the queue as a `message`. */
  lemma DeliverPreserves(v: View, r: ScanResult, rest: Channel.Chan<ScanResult>)
    requires v.stream.phase == Listening && Channel.Receive(v.results) == Channel.Got(r, rest)
    ensures var v' := Step(v, ResultReady);
      && Delivered(v'.stream.sent) + v'.results.items == Delivered(v.stream.sent) + v.results.items
      && (Consistent(v) ==> Consistent(v'))
  {
    DeliveredSnoc(v.stream.sent, Message(r));
    assert v.results.items == [r] + rest.items;
  }

  /** Writing `complete` on a closed, empty queue. */
  lemma CompletePreserves(v: View)
    requires v.stream.phase == Listening && Channel.Receive(v.results) == Channel.Drained
    ensures var v' := Step(v, ResultReady);
      && Delivered(v'.stream.sent) + v'.results.items == Delivered(v.stream.sent) + v.results.items
      && (Consistent(v) ==> Consistent(v'))
  {
    DeliveredSnoc(v.stream.sent, Complete);
  }

  /** The handler after a schedule of wakes. Events are only ever appended; what has
      been delivered followed by what is still queued is the queue it started from;
      the shape of the event sequence is kept. */
  function Run(v: View, ws: seq<Wake>): (v': View)
    ensures |v'.stream.sent| >= |v.stream.sent| && v'.stream.sent[..|v.stream.sent|] == v.stream.sent
    ensures v'.results.closed == v.results.closed
    ensures Delivered(v'.stream.sent) + v'.results.items == Delivered(v.stream.sent) + v.results.items
    ensures Consistent(v) ==> Consistent(v')
    decreases |ws|
  {
    if ws == [] then v
    else
      StepPreserves(v, ws[0]);
      Run(Step(v, ws[0]), ws[1..])
  }

  /** A handler that has returned writes nothing more, whatever happens afterwards:
      in particular nothing follows a disconnect. */
  lemma {:induction false} ReturnedIsFinal(v: View, ws: seq<Wake>)
    requires v.stream.phase != Listening
    ensures Run(v, ws) == v
    decreases |ws|
  {
    if ws != [] {
      ReturnedIsFinal(Step(v, ws[0]), ws[1..]);
    }
  }

  /** A disconnect ends the handler at once: the events written up to it are all the
      client ever receives. */
  lemma {:induction false} DisconnectStops(v: View, ws: seq<Wake>)
    requires v.stream.phase == Listening
    ensures Run(Step(v, ClientGone), ws).stream == Stream(Disconnected, v.stream.sent)
  {
    ReturnedIsFinal(Step(v, ClientGone), ws);
  }

  /** Only the waits that find a result keep the handler listening. */
  predicate AllReady(ws: seq<Wake>)
  {
    forall k :: 0 <= k < |ws| ==> ws[k] == ResultReady
  }

  /** One ready turn on a closed channel: the head of the queue is written, or, on an
      empty queue, the completion marker. */
  lemma DrainStep(pre: seq<Event>, c: Channel.Chan<ScanResult>)
    requires c.closed
    ensures c.items == [] ==>
      Step(View(Stream(Listening, pre), c), ResultReady) == View(Stream(Completed, pre + [Complete]), c)
    ensures c.items != [] ==>
      Step(View(Stream(Listening, pre), c), ResultReady)
        == View(Stream(Listening, pre + [Message(c.items[0])]), Channel.Chan(c.items[1..], true))
  {
  }

  /** A client that stays attached to a closed channel receives every queued result as a
      `message`, in queue order, then exactly one `complete`, which is the last event. */
  lemma {:induction false} DrainClosed(pre: seq<Event>, c: Channel.Chan<ScanResult>, ws: seq<Wake>)
    requires c.closed
    requires |ws| > |c.items|
    requires AllReady(ws)
    ensures Run(View(Stream(Listening, pre), c), ws).stream
         == Stream(Completed, pre + Messages(c.items) + [Complete])
    decreases |ws|
  {
    var v := View(Stream(Listening, pre), c);
    assert ws[0] == ResultReady;
    DrainStep(pre, c);
    if c.items == [] {
      ReturnedIsFinal(Step(v, ws[0]), ws[1..]);
      assert Messages(c.items) == [];
    } else {
      var m := Message(c.items[0]);
      var rest := Channel.Chan(c.items[1..], true);
      AllReadyTail(ws);
      DrainClosed(pre + [m], rest, ws[1..]);
      MessagesCons(pre, c.items);
    }
  }

  lemma AllReadyTail(ws: seq<Wake>)
    requires ws != [] && AllReady(ws)
    ensures AllReady(ws[1..])
  {
    forall k | 0 <= k < |ws[1..]| ensures ws[1..][k] == ResultReady {
      assert ws[1..][k] == ws[k + 1];
    }
  }

  lemma MessagesCons(pre: seq<Event>, rs: seq<ScanResult>)
    requires rs != []
    ensures pre + [Message(rs[0])] + Messages(rs[1..]) == pre + Messages(rs)
  {
    assert Messages(rs) == [Message(rs[0])] + Messages(rs[1..]);
  }

  /** A handler that returned through the completion arm has written events named
      `message` only, then one named `complete`. */
  lemma CompletedEventNames(st: Stream)
    requires WellFormed(st) && st.phase == Completed
    ensures Name(st.sent[|st.sent| - 1]) == "complete"
    ensures forall k :: 0 <= k < |st.sent| - 1 ==> Name(st.sent[k]) == "message"
  {
  }

  /** On a channel that stays open the handler never sends `complete`. */
  lemma OpenNeverCompletes(c: Channel.Chan<ScanResult>, ws: seq<Wake>)
    requires !c.closed
    ensures Run(View(Attach, c), ws).stream.phase != Completed
    ensures Complete !in Run(View(Attach, c), ws).stream.sent
  {
  }
}

=== FILE: sweep.dfy ===
/** The background sweep `scanPorts`: every target crossed with every port, target
    by target, each pair probed once, its result sent on the channel, and the
    progress counter advanced; then the deferred clean-up. */
module Sweep {
  import opened ScanTypes
  import Channel
  import opened Admission

  /** The outcome of a bounded-time TCP connect to `ip` on the given port number:
      true when the connection was made. Only the address and the port number reach
      the dial; the port's name and protocol tag do not. */
  type Probe = (string, int) -> bool

  /** One (target, port) pair of the sweep. */
  datatype Pair = Pair(ip: string, port: Port)

  /** The status text of one probe. */
  function StatusText(connected: bool): (t: string)
    ensures t == OpenStatus || t == ClosedStatus
    ensures t == OpenStatus <==> connected
  {
    if connected then OpenStatus else ClosedStatus
  }

  /** The result record for one pair, carrying the address and the port record unchanged. */
  function Examine(probe: Probe, p: Pair): (r: ScanResult)
    ensures r.ip == p.ip && r.port == p.port
    ensures r.status == OpenStatus || r.status == ClosedStatus
    ensures r.status == OpenStatus <==> probe(p.ip, p.port.port)
  {
    ScanResult(p.ip, p.port, StatusText(probe(p.ip, p.port.port)))
  }

  /** The pairs of one target, in port order. */
  function Row(ip: string, ports: seq<Port>): (r: seq<Pair>)
    ensures |r| == |ports|
  {
    seq(|ports|, j requires 0 <= j < |ports| => Pair(ip, ports[j]))
  }

  /** The visiting order of the sweep: target-major, port-minor. */
  function Pairs(ips: seq<string>, ports: seq<Port>): (r: seq<Pair>)
    ensures |r| == |ips| * |ports|
    decreases |ips|
  {
    if ips == [] then []
    else
      var r := Row(ips[0], ports) + Pairs(ips[1..], ports);
      assert |ips| * |ports| == |ports| + (|ips| - 1) * |ports|;
      r
  }

  /** The result records of a sequence of pairs, one per pair, in the same order. */
  function Results(probe: Probe, pairs: seq<Pair>): (rs: seq<ScanResult>)
    ensures |rs| == |pairs|
  {
    seq(|pairs|, k requires 0 <= k < |pairs| => Examine(probe, pairs[k]))
  }

  /** The position of target `i` with port `j` in a target-major, port-minor sweep. */
  function Position(ips: seq<string>, ports: seq<Port>, i: int, j: int): (k: int)
    requires 0 <= i < |ips| && 0 <= j < |ports|
    ensures k == i * |ports| + j
    ensures 0 <= k < |ips| * |ports|
  {
    ProductBound(|ips|, |ports|, i, j);
    i * |ports| + j
  }

  lemma ProductBound(n: int, m: int, i: int, j: int)
    requires 0 <= i < n && 0 <= j < m
    ensures 0 <= i * m + j < n * m
  {
    assert i * m <= (n - 1) * m;
    assert (n - 1) * m + m == n * m;
  }

  /** Position `i * |ports| + j` of the sweep is target `i` with port `j`: the sweep
      visits pairs in lexicographic (target, port) order and each pair exactly once. */
  lemma {:induction false} PairsOrder(ips: seq<string>, ports: seq<Port>, i: int, j: int)
    requires 0 <= i < |ips| && 0 <= j < |ports|
    ensures Pairs(ips, ports)[Position(ips, ports, i, j)] == Pair(ips[i], ports[j])
    decreases i
  {
    var rest := Pairs(ips[1..], ports);
    assert Pairs(ips, ports) == Row(ips[0], ports) + rest;
    if i > 0 {
      PairsOrder(ips[1..], ports, i - 1, j);
      assert Position(ips, ports, i, j) == |ports| + Position(ips[1..], ports, i - 1, j);
    }
  }

  /** The sweep of a concatenation of target lists is the concatenation of the sweeps. */
  lemma {:induction false} PairsAppend(a: seq<string>, b: seq<string>, ports: seq<Port>)
    ensures Pairs(a + b, ports) == Pairs(a, ports) + Pairs(b, ports)
    decreases |a|
  {
    if a != [] {
      PairsAppend(a[1..], b, ports);
      assert (a + b)[0] == a[0] && (a + b)[1..] == a[1..] + b;
      assert Pairs(a + b, ports) == Row(a[0], ports) + Pairs(a[1..] + b, ports);
      assert Pairs(a, ports) == Row(a[0], ports) + Pairs(a[1..], ports);
      assert Row(a[0], ports) + (Pairs(a[1..], ports) + Pairs(b, ports))
          == (Row(a[0], ports) + Pairs(a[1..], ports)) + Pairs(b, ports);
    } else {
      assert a + b == b;
    }
  }

  /** The sweep of one more target extends the sweep by that target's row. */
  lemma PairsSnoc(ips: seq<string>, ports: seq<Port>, i: int)
    requires 0 <= i < |ips|
    ensures Pairs(ips[..i + 1], ports) == Pairs(ips[..i], ports) + Row(ips[i], ports)
  {
    assert ips[..i + 1] == ips[..i] + [ips[i]];
    PairsAppend(ips[..i], [ips[i]], ports);
    assert Pairs([ips[i]], ports) == Row(ips[i], ports) + Pairs([], ports);
  }

  lemma ResultsAppend(probe: Probe, a: seq<Pair>, b: seq<Pair>)
    ensures Results(probe, a + b) == Results(probe, a) + Results(probe, b)
  {
    assert forall k :: 0 <= k < |a| + |b| ==>
      Results(probe, a + b)[k] == (Results(probe, a) + Results(probe, b))[k];
  }

  /** The body of the inner loop for one pair: send its result, then advance the counter. */
  function Step(s: Server, probe: Probe, p: Pair): (t: Server)
    requires !s.results.closed
  {
    var sent := Channel.Send(s.results, Examine(probe, p));
    Server(s.progress.(current := s.progress.current + 1), sent)
  }

  /** The effect of running the loop body over `pairs` in order, in closed form: one
      result per pair sent in pair order, and the counter raised by the number of pairs. */
  function Steps(s: Server, probe: Probe, pairs: seq<Pair>): Server
    requires !s.results.closed
  {
    Server(s.progress.(current := s.progress.current + |pairs|), Channel.SendAll(s.results, Results(probe, pairs)))
  }

  /** Handling one more pair is one more run of the loop body: its result is sent after
      all earlier ones and the counter goes up by exactly one. */
  lemma StepsSnoc(s: Server, probe: Probe, done: seq<Pair>, p: Pair)
    requires !s.results.closed
    ensures Steps(s, probe, done + [p]) == Step(Steps(s, probe, done), probe, p)
  {
    ResultsAppend(probe, done, [p]);
    assert s.results.items + Results(probe, done + [p])
        == (s.results.items + Results(probe, done)) + [Examine(probe, p)];
  }

  /** Handling a concatenation of pair sequences handles each part in turn. */
  lemma StepsAppend(s: Server, probe: Probe, a: seq<Pair>, b: seq<Pair>)
    requires !s.results.closed
    ensures Steps(s, probe, a + b) == Steps(Steps(s, probe, a), probe, b)
  {
    ResultsAppend(probe, a, b);
    assert s.results.items + Results(probe, a + b)
        == (s.results.items + Results(probe, a)) + Results(probe, b);
  }

  /** The deferred clean-up: the run is marked finished, then the channel is closed. */
  function Cleanup(s: Server): (t: Server)
    requires !s.results.closed
    ensures !t.progress.isRunning && t.results.closed
    ensures t.results.items == s.results.items
    ensures t.progress.total == s.progress.total && t.progress.current == s.progress.current
  {
    var finished := s.(progress := s.progress.(isRunning := false));
    finished.(results := Channel.Close(finished.results))
  }

  /** The whole sweep, as a functional reference. */
  function FullSweep(s: Server, probe: Probe, ips: seq<string>, ports: seq<Port>): Server
    requires !s.results.closed
  {
    Cleanup(Steps(s, probe, Pairs(ips, ports)))
  }

  /** The inner loop of `scanPorts` for one target: every port in order. */
  method ScanTarget(s: Server, probe: Probe, ip: string, ports: seq<Port>) returns (t: Server)
    requires !s.results.closed
    ensures t == Steps(s, probe, Row(ip, ports))
  {
    t := s;
    var j := 0;
    while j < |ports|
      invariant 0 <= j <= |ports|
      invariant t == Steps(s, probe, Row(ip, ports[..j]))
    {
      ghost var prev := t;
      var port := ports[j];
      var status := ClosedStatus;
      if probe(ip, port.port) {
        status := OpenStatus;
      }
      t := t.(results := Channel.Send(t.results, ScanResult(ip, port, status)));
      t := t.(progress := t.progress.(current := t.progress.current + 1));
      BodyIsStep(prev, probe, ip, port, status);
      RowSnoc(ip, ports, j);
      StepsSnoc(s, probe, Row(ip, ports[..j]), Pair(ip, port));
      j := j + 1;
    }
    assert ports[..j] == ports;
  }

  /** The statements of the inner loop body do what `Step` says. */
  lemma BodyIsStep(s: Server, probe: Probe, ip: string, port: Port, status: string)
    requires !s.results.closed
    requires status == (if probe(ip, port.port) then OpenStatus else ClosedStatus)
    ensures s.(results := Channel.Send(s.results, ScanResult(ip, port, status)))
             .(progress := s.progress.(current := s.progress.current + 1))
         == Step(s, probe, Pair(ip, port))
  {
  }

  lemma RowSnoc(ip: string, ports: seq<Port>, j: int)
    requires 0 <= j < |ports|
    ensures Row(ip, ports[..j + 1]) == Row(ip, ports[..j]) + [Pair(ip, ports[j])]
  {
  }

  /** `scanPorts`: the outer loop over the targets, then the deferred clean-up. It
      sends one result per pair in target-major, port-minor order, advances the
      counter once per result, and always finishes with the run marked idle and the
      channel closed, also when there are no targets or no ports. */
  method ScanPorts(s: Server, probe: Probe, ips: seq<string>, ports: seq<Port>) returns (t: Server)
    requires !s.results.closed
    ensures t == FullSweep(s, probe, ips, ports)
    ensures t.results.items == s.results.items + Results(probe, Pairs(ips, ports))
    ensures t.results.closed && !t.progress.isRunning
    ensures t.progress.current == s.progress.current + |Pairs(ips, ports)|
    ensures t.progress.total == s.progress.total
  {
    t := s;
    var i := 0;
    while i < |ips|
      invariant 0 <= i <= |ips|
      invariant t == Steps(s, probe, Pairs(ips[..i], ports))
    {
      t := ScanTarget(t, probe, ips[i], ports);
      StepsAppend(s, probe, Pairs(ips[..i], ports), Row(ips[i], ports));
      PairsSnoc(ips, ports, i);
      i := i + 1;
    }
    assert ips[..i] == ips;
    t := Cleanup(t);
  }
}
